=== FILE: README.md ===
# Download tokens and delivered-file cleanup, modelled in Dafny

This project models the download flow of a movie-catalog site. A visitor
asks for the SD or HD file of a movie and receives a download token that
lives for one hour. The token is validated on the web and handed to a
Telegram bot as its `/start` payload. The bot sends the file, records the
sent message for deletion 24 hours later, and deletes the token. A periodic
sweep drops due records. It is meant to delete their messages in the chat
first, but as written it does not (see "## Findings").

The database is one immutable value, `Models.Store`. It holds the catalog
(slug to SD/HD file identifiers), the `DownloadToken` rows in primary-key
order, and the `SentFile` rows. Every handler is a pure function from the
store, the current time in whole seconds, its inputs and the outcome of
any external call to a new store and a response. The sweep is a method
with a loop, because the source's sweep is a loop with counters.

Modules follow the source files:

- `Base` (base.dfy): `Option`, first-match search, one-row deletion, filters.
- `Models` (models.dfy): movies/models.py.
- `Views` (views.dfy): BF/views.py.
- `Serializers` (serializers.dfy): movies/serializers.py.
- `BotHandlers` (bot_handlers.dfy): movies/bot_handlers.py.
- `TelegramBot` (telegram_bot.dfy): telegram_bot.py.
- `CleanupMessages` (cleanup_messages.dfy): movies/management/commands/cleanup_messages.py.
- `Lifecycle` (lifecycle.dfy): properties that span several operations.

Modelling choices:

- Tokens are a sequence in primary-key order. `.first()` on a queryset with
  no ordering returns the lowest primary key, so "first match" is exactly
  the first match in the sequence.
- `SentFile` rows are a sequence that may hold several rows for one
  (chat, message) pair. models.py:112 declares an index on that pair, not
  a uniqueness constraint.
- Lookups are total. No row means not found. Two rows with one identifier
  means `MultipleObjectsReturned`: an uncaught error in the web view, and
  the generic error reply in the bot. `UniqueTokens` states the
  `unique=True` constraint. Every operation that writes tokens keeps it.
- The fresh UUID is an input. If it is already taken, the insert violates
  the uniqueness constraint and the request fails. No precondition rules
  this out.
- A null `quality` on a redeemed token makes the bot send the HD file.
  `SentFile.create` then fails on the NOT NULL column, so the token is kept
  and no record is written. The model does the same.
- Delivery through the chat has three outcomes (`Transfer`): the document
  did not go out; it went out but a follow-up chat message (removing the
  "sending" notice, or the confirmation) raised; or all of it succeeded.
  In the middle case neither handler records the message or schedules its
  deletion, and the token stays. The message then stays in the chat for
  good, and the same link delivers the file again
  (`Lifecycle.UnconfirmedDeliveryIsUntracked`). The middle case records
  whether the notice was already removed, because the legacy handler's
  error path deletes the notice again without a guard
  (telegram_bot.py:179). When the notice is gone, that raises and the
  handler ends without its error reply (`Raised`).
- The model follows the code on three points a reader might not expect:
  - The bot does not send the file identifier copied into the token. It
    reads the movie's current SD/HD identifier.
  - Token quality is free text. Any value other than exactly `"SD"`
    selects the HD file.
  - Serializer reuse also compares the file identifier, so after a file
    change a second live token for the same movie and quality can appear.

## Model

| member | source | states |
|---|---|---|
| Models.SaveExpiry | movies/models.py:81-85 | an unsaved row with no expiry gets now + 3600; an explicit expiry or a re-save keeps it; a saved row with no expiry is rejected |
| Models.NewToken | movies/models.py:69-85 | a created token carries the given identifier, movie, quality and file, expires exactly 3600 s after creation, and is valid at its creation instant |
| Models.DefaultLifetimeWindow | movies/models.py:84-89 | validity is the strict test now < expires_at; a default token is valid from creation until just before creation + 3600, and invalid exactly at creation + 3600 |
| Models.LookupToken | movies/models.py:73 | lookup by identifier yields no row, the one row with that identifier and its position, or reports two rows |
| Models.UniqueLookup | movies/models.py:73 | under the uniqueness constraint a lookup never finds two rows |
| Models.RemoveAtUnique | movies/models.py:73 | deleting one row keeps identifiers unique |
| Models.FilterUnique | movies/models.py:73 | a filtered deletion keeps identifiers unique |
| Models.AppendUnique | movies/models.py:73 | inserting a row with an unused identifier keeps identifiers unique |
| Views.UpperIsSd | BF/views.py:81 | after upper-casing, the quality equals "SD" exactly for the four letter-case spellings of "sd" |
| Views.MovieDetail | BF/views.py:48-70 | an unknown slug is not found; the page offers an SD link iff the SD file id is non-empty, and likewise for HD, each pointing at issuance for that quality |
| Views.OfferedFile | BF/views.py:84-89 | only "SD" with a non-empty SD file, or "HD" with a non-empty HD file, yields a file; the file is the matching one and non-empty |
| Views.IssueToken | BF/views.py:75-111 | unknown movie and unavailable quality change nothing; a live token of the same movie and quality is reused with nothing inserted; otherwise exactly one new token is appended with the selected file, unless its identifier is taken; the returned token is valid now |
| Views.BotLinkCarriesToken | BF/views.py:135 | the bot deep link delivers exactly the token as the start payload |
| Views.ValidateToken | BF/views.py:114-141 | an unknown token is refused with nothing changed; an expired token is deleted (that row only) and refused; a valid token is kept and the redirect is the bot deep link; a valid token is never deleted |
| Serializers.Purge | movies/serializers.py:29-33 | exactly the tokens of this movie and quality with expires_at < now are removed; all other rows stay |
| Serializers.GenerateTokenUrl | movies/serializers.py:21-58 | no file gives no URL and no change; otherwise the purge happens, a live token with the same movie, quality and file is reused, or exactly one token is added; an identifier still taken after the purge makes the insert fail with only the purge done, and that is the only way it fails; the returned token is valid and matches |
| Serializers.SdDownloadUrl | movies/serializers.py:60-62 | the SD getter returns a token of this movie with quality "SD" and the movie's SD file, valid now; no URL exactly when that file is empty; catalog and records unchanged |
| Serializers.HdDownloadUrl | movies/serializers.py:64-66 | the HD getter returns a token of this movie with quality "HD" and the movie's HD file, valid now; no URL exactly when that file is empty; catalog and records unchanged |
| Serializers.ExpiringNowIsKeptButNotReused | movies/serializers.py:32-40 | a token with expires_at == now is neither purged nor handed out |
| BotHandlers.DeliveryRecord | movies/bot_handlers.py:87-93 | a delivery record is keyed by (chat, message) and due 24 hours after sending |
| BotHandlers.HandleStartCommand | movies/bot_handlers.py:18-106 | no argument greets with nothing changed; an unknown token changes nothing; a lookup that raises gives the generic error reply and changes nothing; for the one row with the identifier, in both directions: expired means that row alone is deleted with the expired reply, valid with no movie means deleted with the no-movie reply, valid with no file for its quality means deleted with the file-missing reply; a delivery adds exactly one record and then deletes the token; an incomplete transfer or a rejected record keeps the token; a deliverable unique token is delivered exactly when the transfer completes |
| BotHandlers.LookupErrorCases | movies/bot_handlers.py:33-43 | the generic error reply is given exactly when the lookup raises, two rows carry the identifier, or the token's movie does not resolve |
| TelegramBot.Start | telegram_bot.py:60-186 | the legacy handler schedules a deletion job for the sent message, due in 24 hours, exactly when the send and its follow-up messages succeeded, whether or not the record is then written; a failure after the notice was removed ends the handler without a reply |
| TelegramBot.StartAgreesWithHandler | telegram_bot.py:60-186 | the legacy handler changes both stores exactly as the newer handler does; it answers as the newer one does, except that it raises without answering exactly where the newer one reports a send error after the "sending" notice is gone |
| TelegramBot.DeleteMessageJob | telegram_bot.py:40-57 | a successful chat deletion drops every record of that (chat, message) pair and nothing else; a failed one changes nothing |
| TelegramBot.JobRemovesDeliveredRecord | telegram_bot.py:153-176 | the job scheduled by a delivery, once it succeeds, removes that delivery's record and keeps all records of other messages |
| CleanupMessages.SweepSelection | movies/management/commands/cleanup_messages.py:19 | the sweep selects exactly the records with delete_at <= now and leaves exactly those with delete_at > now |
| CleanupMessages.SweepRows | movies/management/commands/cleanup_messages.py:26-51 | the loop keeps exactly the not-due rows in order, asks one chat deletion per due row in order, and its counters split those requests into successes and failures |
| CleanupMessages.Handle | movies/management/commands/cleanup_messages.py:15-57 | with the chat deletion awaited: every due record is removed whatever the chat answered, and no other; one delete_message call per due record; deleted + failed equals the number of due records; deleted counts the successful chat deletions; with nothing due there are no calls and no change |
| CleanupMessages.AllSucceed | movies/management/commands/cleanup_messages.py:26-36 | when no chat deletion raises, every due row counts as deleted |
| CleanupMessages.HandleAsWritten | movies/management/commands/cleanup_messages.py:26-51 | the sweep as written (delete_message not awaited) removes exactly the due rows, deletes no chat message, and reports every due row deleted and none failed |
| CleanupMessages.UnawaitedSweepLosesMessage | movies/management/commands/cleanup_messages.py:29-35 | in any store, every due record's row is removed by the sweep, while its message is a deletion the awaited sweep requests and the sweep as written never performs |
| CleanupMessages.SweepPartitions | movies/management/commands/cleanup_messages.py:19-51 | retained and removed records together are exactly the records before the sweep |
| CleanupMessages.SweepIdempotent | movies/management/commands/cleanup_messages.py:19 | a second sweep at the same time finds nothing due and changes nothing |
| CleanupMessages.DeliveredRecordLifetime | movies/bot_handlers.py:92 | a delivered record survives every sweep before sent + 24 h and is swept from then on |
| Lifecycle.IssueKeepsTokensUnique | BF/views.py:102-107 | issuance keeps token identifiers unique |
| Lifecycle.ValidateKeepsTokensUnique | BF/views.py:127-128 | validation keeps token identifiers unique |
| Lifecycle.GenerateKeepsTokensUnique | movies/serializers.py:29-52 | the serializer's purge-and-create keeps token identifiers unique |
| Lifecycle.RedeemKeepsTokensUnique | movies/bot_handlers.py:45-95 | both bot handlers keep token identifiers unique |
| Lifecycle.IssueAgainReturnsSameToken | BF/views.py:93-100 | issuing again, no earlier and while the returned token lives, returns the same token and inserts nothing |
| Lifecycle.RedeemedTokenIsGone | movies/bot_handlers.py:95 | after a delivery the same link hits the not-found branch |
| Lifecycle.ExpiredTokenIsGone | movies/bot_handlers.py:45-48 | a link found expired is deleted, so the next attempt reports not found instead of expired |
| Lifecycle.BotSendsOfferedFile | movies/bot_handlers.py:56-59 | for a quality the issuance view accepts, the bot sends exactly the file the view offered |
| Lifecycle.IssuedTokenIsRedeemable | movies/bot_handlers.py:45-95 | a token the issuance view hands out is delivered by the bot at any later instant while it lives and the catalog is unchanged, with one record under its movie and upper-cased quality |
| Lifecycle.FreshTokenRedeemableForAnHour | BF/views.py:102-107 | a token the view creates is delivered at every instant from its creation until just before creation + 3600 |
| Lifecycle.ServedTokenIsRedeemable | movies/serializers.py:21-58 | a token the serializer hands out for the file the bot sends for that quality is delivered while it lives, with one record |
| Lifecycle.GettersServeBotFile | movies/serializers.py:60-66 | each getter's result is the serializer's result for the file the bot sends for its quality |
| Lifecycle.GetterUrlIsRedeemable | movies/serializers.py:60-66 | a URL the SD or HD getter returns is delivered by the bot while its token lives, with one record of that quality |
| Lifecycle.UnconfirmedDeliveryIsUntracked | movies/bot_handlers.py:66-106 | when the document went out but a follow-up chat message failed, both handlers keep the token, write no record and schedule no job, and the same link delivers again; the legacy handler gives the error reply only if the notice was still there |
| Lifecycle.DetailLinksAreIssuable | BF/views.py:58-62 | every link the detail page shows leads to a token, never to Forbidden |
| Lifecycle.OneDownload | BF/views.py:75-141 | a movie with only an SD file: HD is refused; SD is issued, validated and delivered once with one record due in 24 h; the second redemption finds nothing |

## Left out

- HTTP and Telegram client calls are inputs. These are the document send
  and its follow-up chat messages (`Transfer`), chat message deletion
  (`remoteOk`), and an exception while looking a token up (`lookupFails`).
  A malformed identifier or a database error raises there.
- Database writes other than inserts rejected by the schema are assumed to
  succeed. A failing token delete after a successful record is not modelled.
- The source reads the clock several times per request. The model uses one
  instant per request, so a record's delete_at is exactly sent_at + 86400.
- The job queue's in-process timer (telegram_bot.py:154-162) is modelled
  only as the `DeleteJob` value it is given. The effect of running it is
  `DeleteMessageJob`.
- CleanupMessages.Handle: this is the sweep with its `delete_message` call
  awaited, which is what the command evidently means to do. As written, the
  call is not awaited on the asynchronous client the project uses, so no
  chat message is deleted, `failed_count` is always 0 and `deleted_count`
  always equals the number of due rows (see "## Findings" and
  `CleanupMessages.HandleAsWritten`). In the awaited sweep the chat's
  answer is a function of (chat, message). Rows are visited in store
  order, not by descending sent_at. The final store and the counters do
  not depend on the order.
- TelegramBot.StartAgreesWithHandler: chat replies other than the
  document transfer and its two follow-up messages are assumed to succeed.
  When the file is missing, the legacy handler replies before deleting the
  token (telegram_bot.py:126-127) while the newer one deletes first
  (movies/bot_handlers.py:62-63); if that reply raised, the legacy handler
  would keep the token and the two would differ. A failing "sending"
  notice before the transfer leaves the store unchanged and is covered by
  `Interrupted`. The legacy error path's second deletion of the notice is
  assumed to succeed when the notice is still there, and is modelled as
  failing when it was already removed.
- Views.UpperIsSd: upper-casing is modelled for ASCII letters only. Python's
  `str.upper` also maps some non-ASCII letters, for example `ſ` to `S`.
- Token identifiers are compared as text. UUID canonicalisation (letter case,
  braces, missing hyphens) is not modelled.
- Serializer URLs are represented by the token they point at. The absolute
  URI built from the request and the `/download/{token}/` fallback are
  strings around it.
- Races between concurrent issuance requests are not modelled. Every
  operation is one sequential step.
- Webhook plumbing, global bot construction and URL routing are not
  modelled. Pagination and search, `MovieViewSet.download_link`,
  `Movies.get_file_url`, logging and reply texts are not modelled either.
- movies/management/commands/cleanup_old_files.py is not part of this
  model. It filters on fields that `SentFile` does not have.
- A dangling movie reference on a token makes the source's lookup raise
  inside its generic handler. The model answers `LookupError` and changes
  nothing. The foreign key rules this state out in the database.

## Findings

| source | as written | input that shows it | evidently intended | confidence | as-written member | corrected member |
|---|---|---|---|---|---|---|
| movies/management/commands/cleanup_messages.py:29-32 | `bot.delete_message(...)` is called without `await`. On the asynchronous client (python-telegram-bot 20 or later, whose `telegram.ext.Application` the project imports and whose bot methods the handlers await) this only creates a coroutine | one `SentFile` row with delete_at <= now: the row is deleted and counted as deleted, the chat message stays, and no later sweep retries it | await the call, so the message is deleted in the chat and a chat failure is counted as failed | high that the call is not awaited; not executed | CleanupMessages.HandleAsWritten | CleanupMessages.Handle |

=== FILE: base.dfy ===
/** Generic helpers the stores are built from: an optional value, search in
    primary-key order, removal of one row, and removal of every row a filter
    rejects. */
module Base {

  datatype Option<T> = None | Some(value: T)

  /** Index of the first element satisfying `p`. With rows kept in
      primary-key order this is what a query's `.first()` returns. */
  function FindFirst<T>(s: seq<T>, p: T -> bool): (r: Option<nat>)
    ensures r.Some? ==> r.value < |s| && p(s[r.value])
    ensures r.Some? ==> forall j :: 0 <= j < r.value ==> !p(s[j])
    ensures r.None? <==> forall j :: 0 <= j < |s| ==> !p(s[j])
    decreases |s|
  {
    if |s| == 0 then None
    else if p(s[0]) then Some(0)
    else
      match FindFirst(s[1..], p)
      case None => None
      case Some(i) => Some(i + 1)
  }

  /** The sequence without the element at position `i`: deleting one row by
      its primary key. */
  function RemoveAt<T>(s: seq<T>, i: nat): (r: seq<T>)
    requires i < |s|
    ensures |r| == |s| - 1
    ensures forall j :: 0 <= j < i ==> r[j] == s[j]
    ensures forall j :: i <= j < |r| ==> r[j] == s[j + 1]
  {
    s[..i] + s[i + 1..]
  }

  /** The rows `keep` accepts, in their original order: a queryset filter,
      or what is left after a filtered `.delete()` of the complement. */
  function Filter<T>(s: seq<T>, keep: T -> bool): (r: seq<T>)
    ensures |r| <= |s|
    ensures forall x :: x in r ==> x in s && keep(x)
    ensures forall i :: 0 <= i < |s| && keep(s[i]) ==> s[i] in r
    decreases |s|
  {
    if |s| == 0 then []
    else
      var init := Filter(s[..|s| - 1], keep);
      if keep(s[|s| - 1]) then init + [s[|s| - 1]] else init
  }

  /** Counting the rows that satisfy `p`. */
  function Count<T>(s: seq<T>, p: T -> bool): (n: nat)
    ensures n <= |s|
    decreases |s|
  {
    if |s| == 0 then 0
    else Count(s[..|s| - 1], p) + (if p(s[|s| - 1]) then 1 else 0)
  }

  lemma {:induction false} FilterCount<T>(s: seq<T>, keep: T -> bool)
    ensures |Filter(s, keep)| == Count(s, keep)
    decreases |s|
  {
    if |s| > 0 {
      FilterCount(s[..|s| - 1], keep);
    }
  }

  /** Filtering a sequence extended by one element extends the result by at
      most that element. */
  lemma FilterSnoc<T>(s: seq<T>, x: T, keep: T -> bool)
    ensures Filter(s + [x], keep) == Filter(s, keep) + (if keep(x) then [x] else [])
  {
    assert (s + [x])[..|s + [x]| - 1] == s;
  }

  /** No element survives that the filter rejects, and nothing in the input
      is lost: the kept part and the rejected part together are exactly the
      input, as a multiset. */
  lemma {:induction false} FilterPartition<T>(s: seq<T>, keep: T -> bool, drop: T -> bool)
    requires forall x :: drop(x) == !keep(x)
    ensures multiset(Filter(s, keep)) + multiset(Filter(s, drop)) == multiset(s)
    decreases |s|
  {
    if |s| > 0 {
      var init := s[..|s| - 1];
      FilterPartition(init, keep, drop);
      assert s == init + [s[|s| - 1]];
    }
  }

  /** Filtering twice with the same predicate changes nothing more. */
  lemma {:induction false} FilterIdempotent<T>(s: seq<T>, keep: T -> bool)
    ensures Filter(Filter(s, keep), keep) == Filter(s, keep)
    decreases |s|
  {
    if |s| > 0 {
      var init := s[..|s| - 1];
      FilterIdempotent(init, keep);
      if keep(s[|s| - 1]) {
        FilterSnoc(Filter(init, keep), s[|s| - 1], keep);
      }
    }
  }

  /** A filter that rejects every element yields the empty sequence. */
  lemma {:induction false} FilterNone<T>(s: seq<T>, keep: T -> bool)
    requires forall i :: 0 <= i < |s| ==> !keep(s[i])
    ensures Filter(s, keep) == []
    decreases |s|
  {
    if |s| > 0 {
      FilterNone(s[..|s| - 1], keep);
    }
  }

  /** A filter that accepts every element is the identity. */
  lemma {:induction false} FilterAll<T>(s: seq<T>, keep: T -> bool)
    requires forall i :: 0 <= i < |s| ==> keep(s[i])
    ensures Filter(s, keep) == s
    decreases |s|
  {
    if |s| > 0 {
      FilterAll(s[..|s| - 1], keep);
      assert s == s[..|s| - 1] + [s[|s| - 1]];
    }
  }

  /** A relation that holds between every earlier and later element of `s`
      still holds in any filtered subsequence of `s`. */
  lemma {:induction false} FilterPairwise<T>(s: seq<T>, keep: T -> bool, rel: (T, T) -> bool)
    requires forall i, j :: 0 <= i < j < |s| ==> rel(s[i], s[j])
    ensures forall i, j :: 0 <= i < j < |Filter(s, keep)| ==> rel(Filter(s, keep)[i], Filter(s, keep)[j])
    decreases |s|
  {
    if |s| > 0 {
      var init := s[..|s| - 1];
      var last := s[|s| - 1];
      FilterPairwise(init, keep, rel);
      var fi := Filter(init, keep);
      if keep(last) {
        var r := fi + [last];
        forall i, j | 0 <= i < j < |r|
          ensures rel(r[i], r[j])
        {
          if j == |r| - 1 {
            assert r[i] in fi;
            var k :| 0 <= k < |init| && init[k] == r[i];
            assert s[k] == r[i] && s[|s| - 1] == last;
          } else {
            assert r[i] == fi[i] && r[j] == fi[j];
          }
        }
      }
    }
  }
}

=== FILE: bot_handlers.dfy ===
/** Redemption of a token by the bot's `/start` command
    (`handle_start_command` in movies/bot_handlers.py). Chat-side effects are
    inputs: whether the token lookup raised, and how the document transfer
    ended. */
module BotHandlers {
  import opened Base
  import opened Models

  /** The kind of message the bot answers with. */
  datatype Reply = Welcome | InvalidLink | LookupError | LinkExpired | NoMovie | FileMissing | SendError | FileSent
    /** the handler raised out of its error path without answering */
    | Raised

  /** How delivery through the chat ended:
      - `Interrupted`: sending the document raised, so nothing went out;
      - `Unconfirmed(messageId, noticeRemoved)`: the document went out as
        message `messageId`, but a follow-up chat message raised before the
        delivery was recorded: removing the "sending" notice
        (`noticeRemoved` false), or the confirmation reply after the notice
        was removed (`noticeRemoved` true);
      - `Sent(messageId)`: the document went out as message `messageId` and
        both follow-up chat messages succeeded. */
  datatype Transfer = Interrupted | Unconfirmed(messageId: int, noticeRemoved: bool) | Sent(messageId: int)

  /** The file the bot sends: the SD file for quality exactly "SD", the HD
      file for any other quality, a missing one included. */
  function BotFile(m: Movie, quality: Option<string>): (r: Option<string>)
    ensures quality == Some("SD") ==> r == m.sdFileId
    ensures quality != Some("SD") ==> r == m.hdFileId
  {
    if quality == Some("SD") then m.sdFileId else m.hdFileId
  }

  /** The record of a delivered message, due for deletion 24 hours after
      it was sent. */
  function DeliveryRecord(chat: int, messageId: int, movie: MovieId, quality: string, now: int): (f: SentFile)
    ensures Key(f) == (chat, messageId) && f.movie == movie && f.quality == quality
    ensures f.sentAt == now && f.deleteAt - f.sentAt == SentFileLifetime
  {
    SentFile(chat, messageId, movie, quality, now, now + SentFileLifetime)
  }

  /** The token's movie is in the catalog and has a non-empty file for the
      token's quality. */
  predicate HasFile(st: Store, t: DownloadToken) {
    && t.movie.Some? && t.movie.value in st.catalog
    && Present(BotFile(st.catalog[t.movie.value], t.quality))
  }

  /** A token the bot would deliver for: valid now, tied to a movie in the
      catalog that has a file for the token's quality, with a quality that
      the delivered-file record can store. */
  predicate Deliverable(st: Store, t: DownloadToken, now: int) {
    IsValid(t, now) && HasFile(st, t) && t.quality.Some?
  }

  /** The command carries an identifier, the lookup does not raise, row `i`
      is the one row with that identifier, and its movie reference (if any)
      resolves: the handler goes on to examine the token itself. */
  predicate Redeeming(st: Store, args: seq<string>, lookupFails: bool, i: int) {
    && |args| > 0 && !lookupFails
    && OnlyAt(st.tokens, i, args[0])
    && (st.tokens[i].movie.Some? ==> st.tokens[i].movie.value in st.catalog)
  }

  /** `handle_start_command`. With no argument the bot only greets. A lookup
      that raises (a malformed identifier, a database error, a dangling movie
      reference, or two rows with the identifier) and an unknown identifier
      change nothing. A token that is expired, has no movie, or whose movie
      lacks the file is deleted without sending. A delivered file is recorded
      for deletion in 24 hours and only then is the token deleted; when the
      transfer or the record fails the token stays. */
  function HandleStartCommand(st: Store, args: seq<string>, chat: int, now: int,
                              lookupFails: bool, transfer: Transfer): (r: Step<Reply>)
    ensures r.store.catalog == st.catalog && !r.response.Raised?
    ensures r.response.Welcome? <==> |args| == 0
    ensures |args| > 0 && lookupFails ==> r.response == LookupError
    ensures r.response.InvalidLink? <==> |args| > 0 && !lookupFails && !HasToken(st.tokens, args[0])
    ensures r.response in {Welcome, InvalidLink, LookupError, SendError} ==> r.store == st
    // only a delivery adds a record
    ensures !r.response.FileSent? ==> r.store.sent == st.sent
    // discarding without sending: the one row with the identifier goes, and why
    ensures r.response in {LinkExpired, NoMovie, FileMissing} ==>
      exists i :: Redeeming(st, args, lookupFails, i)
        && r.store.tokens == RemoveAt(st.tokens, i)
        && (r.response.LinkExpired? <==> !IsValid(st.tokens[i], now))
        && (r.response.NoMovie? <==> IsValid(st.tokens[i], now) && st.tokens[i].movie.None?)
        && (r.response.FileMissing? <==>
              IsValid(st.tokens[i], now) && st.tokens[i].movie.Some? && !HasFile(st, st.tokens[i]))
    // delivery: one record due in 24 hours, then the token is gone
    ensures r.response.FileSent? ==>
      transfer.Sent? &&
      exists i :: Redeeming(st, args, lookupFails, i)
        && Deliverable(st, st.tokens[i], now)
        && r.store.tokens == RemoveAt(st.tokens, i)
        && r.store.sent == st.sent
          + [DeliveryRecord(chat, transfer.messageId, st.tokens[i].movie.value, st.tokens[i].quality.value, now)]
    // what happens to the one row with the identifier, case by case
    ensures forall i :: Redeeming(st, args, lookupFails, i) && !IsValid(st.tokens[i], now) ==>
      r == Step(st.(tokens := RemoveAt(st.tokens, i)), LinkExpired)
    ensures forall i ::
      (Redeeming(st, args, lookupFails, i) && IsValid(st.tokens[i], now) && st.tokens[i].movie.None?) ==>
      r == Step(st.(tokens := RemoveAt(st.tokens, i)), NoMovie)
    ensures forall i ::
      (Redeeming(st, args, lookupFails, i) && IsValid(st.tokens[i], now)
         && st.tokens[i].movie.Some? && !HasFile(st, st.tokens[i])) ==>
      r == Step(st.(tokens := RemoveAt(st.tokens, i)), FileMissing)
    // an incomplete transfer, or a record the database rejects, keeps the token
    ensures forall i ::
      (Redeeming(st, args, lookupFails, i) && IsValid(st.tokens[i], now)
         && HasFile(st, st.tokens[i]) && (!transfer.Sent? || st.tokens[i].quality.None?)) ==>
      r == Step(st, SendError)
    ensures forall i ::
      (Redeeming(st, args, lookupFails, i) && Deliverable(st, st.tokens[i], now) && transfer.Sent?) ==>
      r.response.FileSent?
    // under the uniqueness constraint: a deliverable token is delivered
    // exactly when the transfer completes, and kept otherwise
    ensures UniqueTokens(st.tokens) && |args| > 0 && !lookupFails
      && (exists i :: 0 <= i < |st.tokens| && st.tokens[i].token == args[0] && Deliverable(st, st.tokens[i], now))
      ==> (r.response.FileSent? <==> transfer.Sent?) && (!transfer.Sent? ==> r.store == st)
  {
    if |args| == 0 then Step(st, Welcome)
    else if lookupFails then Step(st, LookupError)
    else
      match LookupToken(st.tokens, args[0])
      case Missing => Step(st, InvalidLink)
      case Ambiguous => Step(st, LookupError)
      case Unique(i) =>
        var t := st.tokens[i];
        if t.movie.Some? && t.movie.value !in st.catalog then Step(st, LookupError)
        else
          var spent := st.(tokens := RemoveAt(st.tokens, i));
          if !IsValid(t, now) then Step(spent, LinkExpired)
          else if t.movie.None? then Step(spent, NoMovie)
          else if !Present(BotFile(st.catalog[t.movie.value], t.quality)) then Step(spent, FileMissing)
          else if !transfer.Sent? || t.quality.None? then Step(st, SendError)
          else
            var record := DeliveryRecord(chat, transfer.messageId, t.movie.value, t.quality.value, now);
            Step(spent.(sent := st.sent + [record]), FileSent)
  }

  /** The generic error reply answers exactly the lookups that raise: an
      exception while looking up, two rows with the identifier, or a movie
      reference that does not resolve. */
  lemma LookupErrorCases(st: Store, args: seq<string>, chat: int, now: int, lookupFails: bool, transfer: Transfer)
    ensures HandleStartCommand(st, args, chat, now, lookupFails, transfer).response.LookupError?
        <==> |args| > 0 && (lookupFails
               || (HasToken(st.tokens, args[0]) && forall i :: !Redeeming(st, args, lookupFails, i)))
  {
    if |args| > 0 && !lookupFails {
      var id := args[0];
      match LookupToken(st.tokens, id)
      case Missing =>
      case Ambiguous =>
        var a, b :| 0 <= a < b < |st.tokens| && st.tokens[a].token == id && st.tokens[b].token == id;
        forall i
          ensures !Redeeming(st, args, lookupFails, i)
        {
        }
      case Unique(k) =>
        forall i
          ensures Redeeming(st, args, lookupFails, i) ==> i == k
        {
        }
    }
  }
}

=== FILE: cleanup_messages.dfy ===
/** The periodic sweep of delivered messages (`Command.handle` in
    movies/management/commands/cleanup_messages.py). Every record whose
    deletion time has come is dropped. The sweep is meant to delete each
    such message in the chat first, and to drop the row whether or not that
    succeeded: `Handle` is that sweep, with the chat's answer for each
    message as the input `remoteOk`. As written, the chat deletion is never
    awaited, so no message is deleted: `HandleAsWritten` is that sweep. */
module CleanupMessages {
  import opened Base
  import opened Models

  /** A record is due once its deletion time is not after now. */
  predicate IsDue(f: SentFile, now: int) {
    f.deleteAt <= now
  }

  function DueAt(now: int): SentFile -> bool {
    (f: SentFile) => IsDue(f, now)
  }

  function NotDueAt(now: int): SentFile -> bool {
    (f: SentFile) => !IsDue(f, now)
  }

  /** The rows the sweep selects. */
  function Due(sent: seq<SentFile>, now: int): seq<SentFile> {
    Filter(sent, DueAt(now))
  }

  /** The rows the sweep leaves behind. */
  function Retained(sent: seq<SentFile>, now: int): seq<SentFile> {
    Filter(sent, NotDueAt(now))
  }

  /** The sweep selects exactly the rows whose deletion time is not after
      now and leaves exactly the others. */
  lemma SweepSelection(sent: seq<SentFile>, now: int)
    ensures forall f :: f in Due(sent, now) <==> f in sent && f.deleteAt <= now
    ensures forall f :: f in Retained(sent, now) <==> f in sent && f.deleteAt > now
  {
  }

  /** The (chat, message) pairs of some records, in order: the chat
      deletions the sweep asks for. */
  function Keys(fs: seq<SentFile>): (ks: seq<(int, int)>)
    ensures |ks| == |fs|
    ensures forall i :: 0 <= i < |fs| ==> ks[i] == Key(fs[i])
  {
    seq(|fs|, i requires 0 <= i < |fs| => Key(fs[i]))
  }

  /** How many of the requested chat deletions succeeded. */
  function Succeeded(calls: seq<(int, int)>, remoteOk: (int, int) -> bool): (n: nat)
    ensures n <= |calls|
    decreases |calls|
  {
    if |calls| == 0 then 0
    else
      var last := calls[|calls| - 1];
      Succeeded(calls[..|calls| - 1], remoteOk) + (if remoteOk(last.0, last.1) then 1 else 0)
  }

  /** Extending the rows by one extends exactly one of the two selections
      by that row. */
  lemma DueSnoc(sent: seq<SentFile>, f: SentFile, now: int)
    ensures Due(sent + [f], now) == Due(sent, now) + (if IsDue(f, now) then [f] else [])
    ensures Retained(sent + [f], now) == Retained(sent, now) + (if IsDue(f, now) then [] else [f])
  {
    FilterSnoc(sent, f, DueAt(now));
    FilterSnoc(sent, f, NotDueAt(now));
  }

  lemma KeysSnoc(fs: seq<SentFile>, f: SentFile)
    ensures Keys(fs + [f]) == Keys(fs) + [Key(f)]
  {
  }

  lemma SucceededSnoc(calls: seq<(int, int)>, k: (int, int), remoteOk: (int, int) -> bool)
    ensures Succeeded(calls + [k], remoteOk) == Succeeded(calls, remoteOk) + (if remoteOk(k.0, k.1) then 1 else 0)
  {
    assert (calls + [k])[..|calls|] == calls;
  }

  /** With no record due, nothing is selected and everything is kept. */
  lemma NothingDue(sent: seq<SentFile>, now: int)
    requires forall i :: 0 <= i < |sent| ==> sent[i].deleteAt > now
    ensures Due(sent, now) == [] && Retained(sent, now) == sent
  {
    FilterNone(sent, DueAt(now));
    FilterAll(sent, NotDueAt(now));
  }

  /** The rows kept among the first `i` rows visited. */
  function KeptUpTo(sent: seq<SentFile>, i: nat, now: int): seq<SentFile>
    requires i <= |sent|
  {
    if i == 0 then []
    else KeptUpTo(sent, i - 1, now) + (if IsDue(sent[i - 1], now) then [] else [sent[i - 1]])
  }

  /** The chat deletions requested for the first `i` rows visited. */
  function CallsUpTo(sent: seq<SentFile>, i: nat, now: int): seq<(int, int)>
    requires i <= |sent|
  {
    if i == 0 then []
    else CallsUpTo(sent, i - 1, now) + (if IsDue(sent[i - 1], now) then [Key(sent[i - 1])] else [])
  }

  /** After visiting the first `i` rows, the kept rows are the retained
      rows of that prefix. */
  lemma {:induction false} KeptIsPrefixSelection(sent: seq<SentFile>, i: nat, now: int)
    requires i <= |sent|
    ensures KeptUpTo(sent, i, now) == Retained(sent[..i], now)
  {
    if i > 0 {
      KeptIsPrefixSelection(sent, i - 1, now);
      assert sent[..i] == sent[..i - 1] + [sent[i - 1]];
      FilterSnoc(sent[..i - 1], sent[i - 1], NotDueAt(now));
    }
  }

  /** After visiting the first `i` rows, the requested deletions are those
      of the prefix's due rows. */
  lemma {:induction false} CallsArePrefixSelection(sent: seq<SentFile>, i: nat, now: int)
    requires i <= |sent|
    ensures CallsUpTo(sent, i, now) == Keys(Due(sent[..i], now))
  {
    if i > 0 {
      CallsArePrefixSelection(sent, i - 1, now);
      var p := sent[..i - 1];
      var f := sent[i - 1];
      assert sent[..i] == p + [f];
      FilterSnoc(p, f, DueAt(now));
      if IsDue(f, now) {
        KeysSnoc(Due(p, now), f);
      }
    }
  }

  /** The loop of `Command.handle` over the rows: each due row is deleted
      in the chat and dropped, each other row is kept. */
  method SweepRows(sent: seq<SentFile>, now: int, remoteOk: (int, int) -> bool)
    returns (kept: seq<SentFile>, calls: seq<(int, int)>, deletedCount: nat, failedCount: nat)
    ensures kept == Retained(sent, now)
    ensures calls == Keys(Due(sent, now))
    ensures deletedCount + failedCount == |calls|
    ensures deletedCount == Succeeded(calls, remoteOk)
  {
    kept := [];
    calls := [];
    deletedCount, failedCount := 0, 0;
    var i := 0;
    while i < |sent|
      invariant 0 <= i <= |sent|
      invariant kept == KeptUpTo(sent, i, now)
      invariant calls == CallsUpTo(sent, i, now)
      invariant deletedCount + failedCount == |calls|
      invariant deletedCount == Succeeded(calls, remoteOk)
    {
      var f := sent[i];
      if IsDue(f, now) {
        SucceededSnoc(calls, Key(f), remoteOk);
        calls := calls + [Key(f)];
        if remoteOk(f.chatId, f.messageId) {
          deletedCount := deletedCount + 1;
        } else {
          failedCount := failedCount + 1;
        }
      } else {
        kept := kept + [f];
      }
      i := i + 1;
    }
    KeptIsPrefixSelection(sent, |sent|, now);
    CallsArePrefixSelection(sent, |sent|, now);
    assert sent[..|sent|] == sent;
  }

  /** `Command.handle` with its chat deletion awaited, as the command means
      it: `calls` are the chat deletions requested, in order,
      and the two counters split them into successes and failures. */
  method Handle(st: Store, now: int, remoteOk: (int, int) -> bool)
    returns (st': Store, calls: seq<(int, int)>, deletedCount: nat, failedCount: nat)
    ensures st'.catalog == st.catalog && st'.tokens == st.tokens
    // exactly the due rows go, whatever the chat answered
    ensures forall f :: f in st'.sent <==> f in st.sent && f.deleteAt > now
    ensures st'.sent == Retained(st.sent, now)
    // one chat deletion per due row
    ensures calls == Keys(Due(st.sent, now))
    ensures deletedCount + failedCount == |Due(st.sent, now)|
    ensures deletedCount == Succeeded(calls, remoteOk)
    // nothing due: no chat calls and no change
    ensures (forall i :: 0 <= i < |st.sent| ==> st.sent[i].deleteAt > now) ==> calls == [] && st' == st
  {
    var kept;
    kept, calls, deletedCount, failedCount := SweepRows(st.sent, now, remoteOk);
    SweepSelection(st.sent, now);
    if forall j :: 0 <= j < |st.sent| ==> st.sent[j].deleteAt > now {
      NothingDue(st.sent, now);
    }
    st' := st.(sent := kept);
  }

  /** When every chat deletion reports success, all of them count as
      successes. */
  lemma {:induction false} AllSucceed(calls: seq<(int, int)>)
    ensures Succeeded(calls, (c: int, m: int) => true) == |calls|
    decreases |calls|
  {
    if |calls| > 0 {
      AllSucceed(calls[..|calls| - 1]);
    }
  }

  /** `Command.handle` as written: `bot.delete_message` is a coroutine on
      the asynchronous client and the loop calls it without `await`, so no
      chat message is deleted and no chat failure reaches the `except`.
      The rows still go and every one counts as deleted. `performed` lists
      the chat deletions that actually happen. */
  method HandleAsWritten(st: Store, now: int)
    returns (st': Store, performed: seq<(int, int)>, deletedCount: nat, failedCount: nat)
    ensures st'.catalog == st.catalog && st'.tokens == st.tokens
    ensures st'.sent == Retained(st.sent, now)
    ensures performed == []
    ensures failedCount == 0 && deletedCount == |Due(st.sent, now)|
  {
    var kept, calls;
    kept, calls, deletedCount, failedCount := SweepRows(st.sent, now, (c: int, m: int) => true);
    AllSucceed(calls);
    performed := [];
    st' := st.(sent := kept);
  }

  /** Any record due now, swept by the code as written: its row is gone,
      so no later sweep will try again, yet its message was never deleted
      in the chat. The awaited sweep asks for exactly that deletion. */
  lemma UnawaitedSweepLosesMessage(sent: seq<SentFile>, f: SentFile, now: int)
    requires f in sent && f.deleteAt <= now
    ensures f !in Retained(sent, now)
    ensures Key(f) in Keys(Due(sent, now))
  {
    SweepSelection(sent, now);
    var d := Due(sent, now);
    var j :| 0 <= j < |d| && d[j] == f;
    assert Keys(d)[j] == Key(f);
  }

  /** Nothing is lost or invented: the retained rows and the selected rows
      together are exactly the rows before the sweep. */
  lemma SweepPartitions(sent: seq<SentFile>, now: int)
    ensures multiset(Retained(sent, now)) + multiset(Due(sent, now)) == multiset(sent)
  {
    FilterPartition(sent, NotDueAt(now), DueAt(now));
  }

  /** A second sweep at the same time finds nothing due and keeps every row:
      the sweep is idempotent. */
  lemma SweepIdempotent(sent: seq<SentFile>, now: int)
    ensures Due(Retained(sent, now), now) == []
    ensures Retained(Retained(sent, now), now) == Retained(sent, now)
  {
    var r := Retained(sent, now);
    assert forall i :: 0 <= i < |r| ==> r[i] in r;
    FilterNone(r, DueAt(now));
    FilterIdempotent(sent, NotDueAt(now));
  }

  /** A record written at delivery time stays until exactly 24 hours have
      passed and is selected from then on. */
  lemma DeliveredRecordLifetime(sent: seq<SentFile>, f: SentFile, now: int)
    requires f.deleteAt == f.sentAt + SentFileLifetime
    ensures f in Retained(sent + [f], now) <==> now < f.sentAt + SentFileLifetime
    ensures f in Due(sent + [f], now) <==> f.sentAt + SentFileLifetime <= now
  {
    assert f in sent + [f];
  }
}

=== FILE: lifecycle.dfy ===
/** Properties of the token lifecycle that span several operations:
    identifier uniqueness is kept by every operation that writes tokens,
    issuing again while the token lives hands out the same token, a
    redeemed or expired token is gone for good, every link the detail page
    shows can be issued, and the end-to-end download of one movie. */
module Lifecycle {
  import opened Base
  import opened Models
  import opened Views
  import opened Serializers
  import opened BotHandlers
  import opened TelegramBot

  // ----- the uniqueness constraint is an invariant -----

  lemma IssueKeepsTokensUnique(st: Store, slug: MovieId, quality: string, now: int, newId: TokenId)
    requires UniqueTokens(st.tokens)
    ensures UniqueTokens(IssueToken(st, slug, quality, now, newId).store.tokens)
  {
    var r := IssueToken(st, slug, quality, now, newId);
    if r.store != st {
      var q := UpperAscii(quality);
      var t := NewToken(newId, slug, q, OfferedFile(st.catalog[slug], q).value, now);
      assert r.store.tokens == st.tokens + [t] && !HasToken(st.tokens, newId);
      AppendUnique(st.tokens, t);
    }
  }

  lemma ValidateKeepsTokensUnique(st: Store, token: TokenId, bot: string, now: int)
    requires UniqueTokens(st.tokens)
    ensures UniqueTokens(ValidateToken(st, token, bot, now).store.tokens)
  {
    var r := ValidateToken(st, token, bot, now);
    if r.response.ExpiredToken? {
      var i :| 0 <= i < |st.tokens| && st.tokens[i].token == token && r.store == st.(tokens := RemoveAt(st.tokens, i));
      RemoveAtUnique(st.tokens, i);
    }
  }

  lemma GenerateKeepsTokensUnique(st: Store, movie: MovieId, fileId: Option<string>, quality: string, now: int, newId: TokenId)
    requires UniqueTokens(st.tokens)
    ensures UniqueTokens(GenerateTokenUrl(st, movie, fileId, quality, now, newId).store.tokens)
  {
    if Present(fileId) {
      var purged := Purge(st.tokens, movie, quality, now);
      var r := GenerateTokenUrl(st, movie, fileId, quality, now, newId);
      if r.store.tokens != purged {
        var t := NewToken(newId, movie, quality, fileId.value, now);
        assert r.store.tokens == purged + [t];
        assert !HasToken(purged, newId);
        AppendUnique(purged, t);
      }
    }
  }

  lemma RedeemKeepsTokensUnique(st: Store, args: seq<string>, chat: int, now: int, lookupFails: bool, transfer: Transfer)
    requires UniqueTokens(st.tokens)
    ensures UniqueTokens(HandleStartCommand(st, args, chat, now, lookupFails, transfer).store.tokens)
    ensures UniqueTokens(Start(st, args, chat, now, lookupFails, transfer).store.tokens)
  {
    var r := HandleStartCommand(st, args, chat, now, lookupFails, transfer);
    StartAgreesWithHandler(st, args, chat, now, lookupFails, transfer);
    if r.store.tokens != st.tokens {
      var i :| 0 <= i < |st.tokens| && r.store.tokens == RemoveAt(st.tokens, i);
      RemoveAtUnique(st.tokens, i);
    }
  }

  // ----- reuse -----

  /** Every row with identifier `id` is still valid at `now`. */
  predicate StillValid(tokens: seq<DownloadToken>, id: TokenId, now: int) {
    forall i :: 0 <= i < |tokens| && tokens[i].token == id ==> IsValid(tokens[i], now)
  }

  /** Asking again for the same movie and quality, no earlier and while the
      handed-out token still lives, returns the same token and inserts
      nothing. */
  lemma IssueAgainReturnsSameToken(st: Store, slug: MovieId, quality: string,
                                   now1: int, newId1: TokenId, now2: int, newId2: TokenId)
    requires IssueToken(st, slug, quality, now1, newId1).response.RedirectToValidation?
    requires now1 <= now2
    requires StillValid(IssueToken(st, slug, quality, now1, newId1).store.tokens,
                        IssueToken(st, slug, quality, now1, newId1).response.token, now2)
    ensures IssueToken(IssueToken(st, slug, quality, now1, newId1).store, slug, quality, now2, newId2)
         == IssueToken(st, slug, quality, now1, newId1)
  {
    var r1 := IssueToken(st, slug, quality, now1, newId1);
    var q := UpperAscii(quality);
    var tokens := r1.store.tokens;
    var p1 := (t: DownloadToken) => Reusable(t, slug, q, now1);
    var p2 := (t: DownloadToken) => Reusable(t, slug, q, now2);
    // the index the first call handed out
    var k: nat;
    match FindFirst(st.tokens, p1)
    case Some(i) =>
      k := i;
      assert tokens == st.tokens;
    case None =>
      k := |st.tokens|;
      assert tokens[k].token == newId1;
    assert k < |tokens| && p1(tokens[k]) && tokens[k].token == r1.response.token;
    assert forall j :: 0 <= j < k ==> !p1(tokens[j]);
    // at the later instant the same index is still the first reusable one
    assert p2(tokens[k]);
    forall j | 0 <= j < k
      ensures !p2(tokens[j])
    {
      assert !p1(tokens[j]);
    }
    var f := FindFirst(tokens, p2);
    assert f == Some(k);
  }

  // ----- single use -----

  /** After a delivery the same link finds no token any more. */
  lemma RedeemedTokenIsGone(st: Store, args: seq<string>, chat: int, now: int, transfer: Transfer,
                            chat2: int, now2: int, transfer2: Transfer)
    requires HandleStartCommand(st, args, chat, now, false, transfer).response == FileSent
    ensures HandleStartCommand(HandleStartCommand(st, args, chat, now, false, transfer).store,
                               args, chat2, now2, false, transfer2).response == InvalidLink
  {
    var r := HandleStartCommand(st, args, chat, now, false, transfer);
    var i :| 0 <= i < |st.tokens| && st.tokens[i].token == args[0]
      && (forall j :: 0 <= j < |st.tokens| && j != i ==> st.tokens[j].token != args[0])
      && r.store.tokens == RemoveAt(st.tokens, i);
    forall j | 0 <= j < |r.store.tokens|
      ensures r.store.tokens[j].token != args[0]
    {
      if j < i { assert r.store.tokens[j] == st.tokens[j]; }
      else { assert r.store.tokens[j] == st.tokens[j + 1]; }
    }
  }

  /** A link found expired is deleted, so the next attempt reports an
      unknown link rather than an expired one. */
  lemma ExpiredTokenIsGone(st: Store, args: seq<string>, chat: int, now: int, transfer: Transfer,
                           chat2: int, now2: int, transfer2: Transfer)
    requires HandleStartCommand(st, args, chat, now, false, transfer).response == LinkExpired
    ensures HandleStartCommand(HandleStartCommand(st, args, chat, now, false, transfer).store,
                               args, chat2, now2, false, transfer2).response == InvalidLink
  {
    var r := HandleStartCommand(st, args, chat, now, false, transfer);
    var i :| 0 <= i < |st.tokens| && st.tokens[i].token == args[0]
      && (forall j :: 0 <= j < |st.tokens| && j != i ==> st.tokens[j].token != args[0])
      && r.store.tokens == RemoveAt(st.tokens, i);
    forall j | 0 <= j < |r.store.tokens|
      ensures r.store.tokens[j].token != args[0]
    {
      if j < i { assert r.store.tokens[j] == st.tokens[j]; }
      else { assert r.store.tokens[j] == st.tokens[j + 1]; }
    }
  }

  // ----- the detail page and issuance agree -----

  /** Every download link the detail page shows leads to a token, never to
      the Forbidden answer. */
  lemma DetailLinksAreIssuable(st: Store, slug: MovieId, now: int, newId: TokenId)
    requires MovieDetail(st.catalog, slug).Detail?
    ensures MovieDetail(st.catalog, slug).sd.Some? ==>
      !IssueToken(st, slug, MovieDetail(st.catalog, slug).sd.value.quality, now, newId).response.Forbidden?
    ensures MovieDetail(st.catalog, slug).hd.Some? ==>
      !IssueToken(st, slug, MovieDetail(st.catalog, slug).hd.value.quality, now, newId).response.Forbidden?
  {
    assert UpperAscii("sd") == [UpperChar('s'), UpperChar('d')] == "SD";
    assert UpperAscii("hd") == [UpperChar('h'), UpperChar('d')] == "HD";
  }

  // ----- what is issued can be redeemed -----

  /** For a quality the issuance view accepts, the bot sends the very file
      the view offered. */
  lemma BotSendsOfferedFile(m: Movie, q: string)
    requires OfferedFile(m, q).Some?
    ensures BotFile(m, Some(q)) == OfferedFile(m, q)
  {
  }

  /** A token handed out by the issuance view is delivered by the bot at
      any later instant at which it still lives, provided the catalog is
      as it was. The bot records that delivery under the movie and the
      upper-cased quality. */
  lemma IssuedTokenIsRedeemable(st: Store, slug: MovieId, quality: string, now: int, newId: TokenId,
                                chat: int, now2: int, k: int)
    requires UniqueTokens(st.tokens)
    requires IssueToken(st, slug, quality, now, newId).response.RedirectToValidation?
    requires StillValid(IssueToken(st, slug, quality, now, newId).store.tokens,
                        IssueToken(st, slug, quality, now, newId).response.token, now2)
    ensures var s1 := IssueToken(st, slug, quality, now, newId);
      var s2 := HandleStartCommand(s1.store, [s1.response.token], chat, now2, false, Sent(k));
      && s2.response == FileSent
      && s2.store.sent == st.sent + [DeliveryRecord(chat, k, slug, UpperAscii(quality), now2)]
  {
    var s1 := IssueToken(st, slug, quality, now, newId);
    var q := UpperAscii(quality);
    IssueKeepsTokensUnique(st, slug, quality, now, newId);
    var i :| 0 <= i < |s1.store.tokens| && s1.store.tokens[i].token == s1.response.token
      && Reusable(s1.store.tokens[i], slug, q, now);
    BotSendsOfferedFile(st.catalog[slug], q);
    assert Deliverable(s1.store, s1.store.tokens[i], now2);
    assert Redeeming(s1.store, [s1.response.token], false, i);
  }

  /** A token the issuance view creates lives for exactly one hour: the bot
      delivers it at every instant from its creation until just before
      creation + 3600. */
  lemma FreshTokenRedeemableForAnHour(st: Store, slug: MovieId, quality: string, now: int, newId: TokenId,
                                      chat: int, now2: int, k: int)
    requires UniqueTokens(st.tokens) && !HasToken(st.tokens, newId)
    requires slug in st.catalog && OfferedFile(st.catalog[slug], UpperAscii(quality)).Some?
    requires forall i :: 0 <= i < |st.tokens| ==> !Reusable(st.tokens[i], slug, UpperAscii(quality), now)
    requires now <= now2 < now + TokenLifetime
    ensures var s1 := IssueToken(st, slug, quality, now, newId);
      HandleStartCommand(s1.store, [newId], chat, now2, false, Sent(k)).response == FileSent
  {
    var s1 := IssueToken(st, slug, quality, now, newId);
    var q := UpperAscii(quality);
    var t := NewToken(newId, slug, q, OfferedFile(st.catalog[slug], q).value, now);
    assert s1.store.tokens == st.tokens + [t];
    forall j | 0 <= j < |s1.store.tokens| && s1.store.tokens[j].token == newId
      ensures IsValid(s1.store.tokens[j], now2)
    {
    }
    IssuedTokenIsRedeemable(st, slug, quality, now, newId, chat, now2, k);
  }

  /** A token the serializer hands out for the file the bot would send for
      that quality (as both the SD and the HD getter do) is delivered at any
      later instant at which it still lives. */
  lemma ServedTokenIsRedeemable(st: Store, movie: MovieId, quality: string, now: int, newId: TokenId,
                                chat: int, now2: int, k: int)
    requires UniqueTokens(st.tokens) && movie in st.catalog
    requires GenerateTokenUrl(st, movie, BotFile(st.catalog[movie], Some(quality)), quality, now, newId).response.Url?
    requires StillValid(GenerateTokenUrl(st, movie, BotFile(st.catalog[movie], Some(quality)), quality, now, newId).store.tokens,
                        GenerateTokenUrl(st, movie, BotFile(st.catalog[movie], Some(quality)), quality, now, newId).response.token,
                        now2)
    ensures var s1 := GenerateTokenUrl(st, movie, BotFile(st.catalog[movie], Some(quality)), quality, now, newId);
      var s2 := HandleStartCommand(s1.store, [s1.response.token], chat, now2, false, Sent(k));
      && s2.response == FileSent
      && s2.store.sent == st.sent + [DeliveryRecord(chat, k, movie, quality, now2)]
  {
    var fileId := BotFile(st.catalog[movie], Some(quality));
    var s1 := GenerateTokenUrl(st, movie, fileId, quality, now, newId);
    GenerateKeepsTokensUnique(st, movie, fileId, quality, now, newId);
    var i :| 0 <= i < |s1.store.tokens| && s1.store.tokens[i].token == s1.response.token
      && Matching(s1.store.tokens[i], movie, quality, fileId.value, now);
    assert Deliverable(s1.store, s1.store.tokens[i], now2);
    assert Redeeming(s1.store, [s1.response.token], false, i);
  }

  /** Both getters hand the serializer the file the bot sends for their
      quality. */
  lemma GettersServeBotFile(st: Store, movie: MovieId, now: int, newId: TokenId)
    requires movie in st.catalog
    ensures SdDownloadUrl(st, movie, now, newId)
         == GenerateTokenUrl(st, movie, BotFile(st.catalog[movie], Some("SD")), "SD", now, newId)
    ensures HdDownloadUrl(st, movie, now, newId)
         == GenerateTokenUrl(st, movie, BotFile(st.catalog[movie], Some("HD")), "HD", now, newId)
  {
  }

  /** A URL either getter returns leads to a delivery of that quality for
      as long as its token lives. */
  lemma GetterUrlIsRedeemable(st: Store, movie: MovieId, now: int, newId: TokenId, hd: bool,
                              chat: int, now2: int, k: int)
    requires UniqueTokens(st.tokens) && movie in st.catalog
    requires (if hd then HdDownloadUrl(st, movie, now, newId) else SdDownloadUrl(st, movie, now, newId)).response.Url?
    requires StillValid((if hd then HdDownloadUrl(st, movie, now, newId) else SdDownloadUrl(st, movie, now, newId)).store.tokens,
                        (if hd then HdDownloadUrl(st, movie, now, newId) else SdDownloadUrl(st, movie, now, newId)).response.token,
                        now2)
    ensures var s1 := if hd then HdDownloadUrl(st, movie, now, newId) else SdDownloadUrl(st, movie, now, newId);
      var s2 := HandleStartCommand(s1.store, [s1.response.token], chat, now2, false, Sent(k));
      && s2.response == FileSent
      && s2.store.sent == st.sent + [DeliveryRecord(chat, k, movie, if hd then "HD" else "SD", now2)]
  {
    var q := if hd then "HD" else "SD";
    GettersServeBotFile(st, movie, now, newId);
    ServedTokenIsRedeemable(st, movie, q, now, newId, chat, now2, k);
  }

  // ----- a delivery whose confirmation fails -----

  /** When the document goes out but a follow-up chat message fails, the
      message is neither recorded nor scheduled for deletion, so nothing
      ever removes it from the chat; the token stays, and the same link
      delivers the file a second time. The legacy handler answers with the
      error reply only if the "sending" notice was still there. */
  lemma UnconfirmedDeliveryIsUntracked(st: Store, args: seq<string>, chat: int, now: int, k: int,
                                       removed: bool, now2: int, k2: int)
    requires UniqueTokens(st.tokens) && |args| > 0
    requires exists i ::
      (0 <= i < |st.tokens| && st.tokens[i].token == args[0]
         && Deliverable(st, st.tokens[i], now) && Deliverable(st, st.tokens[i], now2))
    ensures HandleStartCommand(st, args, chat, now, false, Unconfirmed(k, removed)) == Step(st, SendError)
    ensures Start(st, args, chat, now, false, Unconfirmed(k, removed))
         == LegacyStep(st, if removed then Raised else SendError, None)
    ensures HandleStartCommand(st, args, chat, now2, false, Sent(k2)).response == FileSent
  {
    StartAgreesWithHandler(st, args, chat, now, false, Unconfirmed(k, removed));
  }

  // ----- one movie, end to end -----

  /** A movie with only an SD file: HD is refused; SD yields token "t1",
      which validates, is delivered within the hour with one record due in
      24 hours, and is unknown afterwards. */
  lemma OneDownload()
    ensures var st0 := Store(map["m1" := Movie(Some("file-sd"), None)], [], []);
      var now := 1000;
      && IssueToken(st0, "m1", "hd", now, "t1") == Step(st0, Forbidden)
      && var s1 := IssueToken(st0, "m1", "sd", now, "t1");
      && s1.response == RedirectToValidation("t1")
      && ValidateToken(s1.store, "t1", "bot", now + 5).response.RedirectToBot?
      && var s2 := HandleStartCommand(s1.store, ["t1"], 42, now + 10, false, Sent(7));
      && s2.response == FileSent
      && s2.store.tokens == []
      && s2.store.sent == [SentFile(42, 7, "m1", "SD", now + 10, now + 10 + SentFileLifetime)]
      && HandleStartCommand(s2.store, ["t1"], 42, now + 20, false, Sent(8)).response == InvalidLink
  {
    var st0 := Store(map["m1" := Movie(Some("file-sd"), None)], [], []);
    var now := 1000;
    assert UpperAscii("hd") == [UpperChar('h'), UpperChar('d')] == "HD";
    assert UpperAscii("sd") == [UpperChar('s'), UpperChar('d')] == "SD";
    var s1 := IssueToken(st0, "m1", "sd", now, "t1");
    var t1 := NewToken("t1", "m1", "SD", "file-sd", now);
    assert s1.store.tokens == [t1];
    assert LookupToken([t1], "t1") == Unique(0);
    var s2 := HandleStartCommand(s1.store, ["t1"], 42, now + 10, false, Sent(7));
    assert s2.store.tokens == RemoveAt([t1], 0) == [];
  }
}

=== FILE: models.dfy ===
/** The persisted records of movies/models.py: catalog entries, download
    tokens and delivered-file records, the token expiry rule, and the whole
    database state the handlers read and write. Time is an integer number of
    seconds. */
module Models {
  import opened Base

  /** A movie is identified by its unique slug. */
  type MovieId = string
  /** The text of a token's UUID, as carried in links. */
  type TokenId = string

  /** Default lifetime of a download token: one hour. */
  const TokenLifetime: int := 3600
  /** Time after which a delivered message is due for deletion: 24 hours. */
  const SentFileLifetime: int := 86400

  /** The two Telegram file identifiers of a catalog entry; either column
      may be null or blank. */
  datatype Movie = Movie(sdFileId: Option<string>, hdFileId: Option<string>)

  /** Python truthiness of a nullable text column: set and non-empty. */
  predicate Present(f: Option<string>) {
    f.Some? && f.value != ""
  }

  /** A `DownloadToken` row. `movie` and `quality` are nullable columns. */
  datatype DownloadToken = DownloadToken(
    token: TokenId,
    movie: Option<MovieId>,
    quality: Option<string>,
    fileId: string,
    expiresAt: int)

  /** A token is valid strictly before its expiry instant. */
  predicate IsValid(t: DownloadToken, now: int) {
    now < t.expiresAt
  }

  /** A `SentFile` row: one message delivered to one chat. */
  datatype SentFile = SentFile(
    chatId: int,
    messageId: int,
    movie: MovieId,
    quality: string,
    sentAt: int,
    deleteAt: int)

  /** The (chat, message) pair a delivered record is indexed by. */
  function Key(f: SentFile): (int, int) {
    (f.chatId, f.messageId)
  }

  /** Python truthiness of an auto-increment primary key. */
  predicate HasPk(pk: Option<int>) {
    pk.Some? && pk.value != 0
  }

  /** The `expires_at` a token row carries after `save()`: an unsaved row
      with no expiry gets one hour from now, any row with an expiry keeps it,
      and `None` means the NOT NULL column rejects the row. */
  function SaveExpiry(pk: Option<int>, expiresAt: Option<int>, now: int): (r: Option<int>)
    ensures expiresAt.Some? ==> r == expiresAt
    ensures expiresAt.None? && !HasPk(pk) ==> r == Some(now + TokenLifetime)
    ensures r.None? <==> expiresAt.None? && HasPk(pk)
  {
    if !HasPk(pk) && expiresAt.None? then Some(now + TokenLifetime) else expiresAt
  }

  /** The row `DownloadToken.objects.create(...)` inserts when no expiry is
      given: the expiry comes from `save()`. */
  function NewToken(id: TokenId, movie: MovieId, quality: string, fileId: string, now: int): (t: DownloadToken)
    ensures t.token == id && t.movie == Some(movie) && t.quality == Some(quality) && t.fileId == fileId
    ensures t.expiresAt == now + TokenLifetime
    ensures IsValid(t, now)
  {
    var expiry := SaveExpiry(None, None, now);
    DownloadToken(id, Some(movie), Some(quality), fileId, expiry.value)
  }

  /** A token saved with the default lifetime at `created` is valid at every
      later instant `now` exactly when `now` lies before `created + 3600`,
      so it is valid on creation and invalid exactly one hour later. */
  lemma DefaultLifetimeWindow(t: DownloadToken, created: int, now: int)
    requires Some(t.expiresAt) == SaveExpiry(None, None, created)
    requires created <= now
    ensures IsValid(t, now) <==> now < created + TokenLifetime
    ensures IsValid(t, created) && !IsValid(t, created + TokenLifetime)
  {
  }

  /** Whole database state seen by the handlers. Tokens are kept in
      primary-key order, so appending is inserting a new row. */
  datatype Store = Store(
    catalog: map<MovieId, Movie>,
    tokens: seq<DownloadToken>,
    sent: seq<SentFile>)

  /** A handler's result: the new state and what it answers. */
  datatype Step<R> = Step(store: Store, response: R)

  predicate HasToken(tokens: seq<DownloadToken>, id: TokenId) {
    exists i :: 0 <= i < |tokens| && tokens[i].token == id
  }

  /** The `unique=True` constraint on `DownloadToken.token`. */
  predicate UniqueTokens(tokens: seq<DownloadToken>) {
    forall i, j :: 0 <= i < j < |tokens| ==> tokens[i].token != tokens[j].token
  }

  /** Row `i` carries identifier `id` and no other row does. */
  predicate OnlyAt(tokens: seq<DownloadToken>, i: int, id: TokenId) {
    && 0 <= i < |tokens| && tokens[i].token == id
    && forall j :: 0 <= j < |tokens| && j != i ==> tokens[j].token != id
  }

  predicate DistinctIds(a: DownloadToken, b: DownloadToken) {
    a.token != b.token
  }

  /** Outcome of `objects.get(token=id)`. */
  datatype Lookup = Missing | Unique(index: nat) | Ambiguous

  /** Looking a token up by its identifier: no row, exactly one row (and
      where), or more than one row. */
  function LookupToken(tokens: seq<DownloadToken>, id: TokenId): (r: Lookup)
    ensures r.Missing? <==> !HasToken(tokens, id)
    ensures r.Unique? ==> r.index < |tokens| && tokens[r.index].token == id
    ensures r.Unique? ==> forall j :: 0 <= j < |tokens| && j != r.index ==> tokens[j].token != id
    ensures r.Ambiguous? ==> exists i, j :: 0 <= i < j < |tokens| && tokens[i].token == id && tokens[j].token == id
  {
    match FindFirst(tokens, (t: DownloadToken) => t.token == id)
    case None => Missing
    case Some(i) =>
      var rest := tokens[i + 1..];
      match FindFirst(rest, (t: DownloadToken) => t.token == id)
      case None => Unique(i)
      case Some(k) =>
        assert tokens[i + 1 + k] == rest[k];
        Ambiguous
  }

  /** Under the uniqueness constraint a lookup never finds two rows. */
  lemma UniqueLookup(tokens: seq<DownloadToken>, id: TokenId)
    requires UniqueTokens(tokens)
    ensures !LookupToken(tokens, id).Ambiguous?
  {
  }

  /** Deleting any one row keeps identifiers unique. */
  lemma RemoveAtUnique(tokens: seq<DownloadToken>, i: nat)
    requires i < |tokens| && UniqueTokens(tokens)
    ensures UniqueTokens(RemoveAt(tokens, i))
  {
    var r := RemoveAt(tokens, i);
    forall a, b | 0 <= a < b < |r|
      ensures r[a].token != r[b].token
    {
      var a' := if a < i then a else a + 1;
      var b' := if b < i then b else b + 1;
      assert r[a] == tokens[a'] && r[b] == tokens[b'];
    }
  }

  /** Deleting the rows a filter rejects keeps identifiers unique. */
  lemma FilterUnique(tokens: seq<DownloadToken>, keep: DownloadToken -> bool)
    requires UniqueTokens(tokens)
    ensures UniqueTokens(Filter(tokens, keep))
  {
    FilterPairwise(tokens, keep, DistinctIds);
  }

  /** Inserting a row whose identifier is not yet taken keeps identifiers
      unique. */
  lemma AppendUnique(tokens: seq<DownloadToken>, t: DownloadToken)
    requires UniqueTokens(tokens) && !HasToken(tokens, t.token)
    ensures UniqueTokens(tokens + [t])
  {
    var r := tokens + [t];
    forall a, b | 0 <= a < b < |r|
      ensures r[a].token != r[b].token
    {
      if b == |tokens| {
        assert r[a] == tokens[a];
      } else {
        assert r[a] == tokens[a] && r[b] == tokens[b];
      }
    }
  }
}

=== FILE: serializers.dfy ===
/** Token issuance as the REST serializer does it (movies/serializers.py):
    purge the pair's expired tokens, reuse a live token with the same file,
    otherwise insert a new one. The returned URL points at the validation
    endpoint for the token and is represented by the token alone. */
module Serializers {
  import opened Base
  import opened Models

  /** A token of this movie and quality whose expiry lies strictly before
      now: the rows the purge deletes. */
  predicate Stale(t: DownloadToken, movie: MovieId, quality: string, now: int) {
    t.movie == Some(movie) && t.quality == Some(quality) && t.expiresAt < now
  }

  /** A token that may be handed out again: same movie, quality and file,
      expiring strictly after now. */
  predicate Matching(t: DownloadToken, movie: MovieId, quality: string, fileId: string, now: int) {
    t.movie == Some(movie) && t.quality == Some(quality) && t.fileId == fileId && t.expiresAt > now
  }

  /** Deleting the pair's expired tokens; every other row stays, in order. */
  function Purge(tokens: seq<DownloadToken>, movie: MovieId, quality: string, now: int): (r: seq<DownloadToken>)
    ensures forall t :: t in r ==> t in tokens && !Stale(t, movie, quality, now)
    ensures forall i :: 0 <= i < |tokens| && !Stale(tokens[i], movie, quality, now) ==> tokens[i] in r
    ensures UniqueTokens(tokens) ==> UniqueTokens(r)
    ensures forall id :: HasToken(r, id) ==> HasToken(tokens, id)
  {
    var keep := (t: DownloadToken) => !Stale(t, movie, quality, now);
    var r := Filter(tokens, keep);
    assert UniqueTokens(tokens) ==> UniqueTokens(r) by {
      if UniqueTokens(tokens) { FilterUnique(tokens, keep); }
    }
    assert forall id :: HasToken(r, id) ==> HasToken(tokens, id) by {
      forall id | HasToken(r, id) ensures HasToken(tokens, id) {
        var i :| 0 <= i < |r| && r[i].token == id;
        assert r[i] in tokens;
      }
    }
    r
  }

  datatype TokenUrl = NoUrl | Url(token: TokenId) | CreateFailed

  /** `_generate_token_url`: no file gives no URL; otherwise purge, then
      reuse the first matching live token or insert a new one-hour token
      under `newId`. The purge is not undone when the insert fails on an
      identifier already in use. */
  function GenerateTokenUrl(st: Store, movie: MovieId, fileId: Option<string>, quality: string, now: int, newId: TokenId): (r: Step<TokenUrl>)
    ensures r.store.catalog == st.catalog && r.store.sent == st.sent
    ensures r.response.NoUrl? <==> !Present(fileId)
    ensures r.response.NoUrl? ==> r.store == st
    // the purge: exactly the pair's expired rows disappear, whatever follows
    ensures Present(fileId) ==>
      forall i :: 0 <= i < |st.tokens| ==>
        (st.tokens[i] in r.store.tokens <==> !Stale(st.tokens[i], movie, quality, now))
    ensures Present(fileId) ==> forall t :: t in r.store.tokens && t !in st.tokens ==> t.token == newId
    // the returned token exists, carries this movie, quality and file, and is valid now
    ensures r.response.Url? ==>
      exists i :: 0 <= i < |r.store.tokens| && r.store.tokens[i].token == r.response.token
        && Matching(r.store.tokens[i], movie, quality, fileId.value, now) && IsValid(r.store.tokens[i], now)
    // reuse: nothing is inserted beyond the purge
    ensures Present(fileId) && (exists i :: 0 <= i < |st.tokens| && Matching(st.tokens[i], movie, quality, fileId.value, now))
      ==> r.response.Url? && r.store.tokens == Purge(st.tokens, movie, quality, now)
    // creation: exactly one row is added after the purge
    ensures Present(fileId) && (forall i :: 0 <= i < |st.tokens| ==> !Matching(st.tokens[i], movie, quality, fileId.value, now))
      && !HasToken(Purge(st.tokens, movie, quality, now), newId)
      ==> (r.response == Url(newId)
           && r.store.tokens == Purge(st.tokens, movie, quality, now) + [NewToken(newId, movie, quality, fileId.value, now)])
    // an identifier still in use after the purge makes the insert fail; the purge stays
    ensures Present(fileId) && (forall i :: 0 <= i < |st.tokens| ==> !Matching(st.tokens[i], movie, quality, fileId.value, now))
      && HasToken(Purge(st.tokens, movie, quality, now), newId)
      ==> r == Step(st.(tokens := Purge(st.tokens, movie, quality, now)), CreateFailed)
    ensures r.response.CreateFailed? ==>
      Present(fileId) && HasToken(Purge(st.tokens, movie, quality, now), newId)
        && r.store.tokens == Purge(st.tokens, movie, quality, now)
  {
    if !Present(fileId) then Step(st, NoUrl)
    else
      var purged := Purge(st.tokens, movie, quality, now);
      var fid := fileId.value;
      match FindFirst(purged, (t: DownloadToken) => Matching(t, movie, quality, fid, now))
      case Some(i) =>
        assert purged[i] in st.tokens;
        Step(st.(tokens := purged), Url(purged[i].token))
      case None =>
        if HasToken(purged, newId) then Step(st.(tokens := purged), CreateFailed)
        else
          var t := NewToken(newId, movie, quality, fid, now);
          assert (purged + [t])[|purged|] == t;
          Step(st.(tokens := purged + [t]), Url(newId))
  }

  /** `get_sd_download_url`: the movie's SD file under quality "SD". */
  function SdDownloadUrl(st: Store, movie: MovieId, now: int, newId: TokenId): (r: Step<TokenUrl>)
    requires movie in st.catalog
    ensures r.store.catalog == st.catalog && r.store.sent == st.sent
    ensures r.response.NoUrl? <==> !Present(st.catalog[movie].sdFileId)
    ensures r.response.Url? ==>
      exists i :: 0 <= i < |r.store.tokens| && r.store.tokens[i].token == r.response.token
        && Matching(r.store.tokens[i], movie, "SD", st.catalog[movie].sdFileId.value, now)
        && IsValid(r.store.tokens[i], now)
  {
    GenerateTokenUrl(st, movie, st.catalog[movie].sdFileId, "SD", now, newId)
  }

  /** `get_hd_download_url`: the movie's HD file under quality "HD". */
  function HdDownloadUrl(st: Store, movie: MovieId, now: int, newId: TokenId): (r: Step<TokenUrl>)
    requires movie in st.catalog
    ensures r.store.catalog == st.catalog && r.store.sent == st.sent
    ensures r.response.NoUrl? <==> !Present(st.catalog[movie].hdFileId)
    ensures r.response.Url? ==>
      exists i :: 0 <= i < |r.store.tokens| && r.store.tokens[i].token == r.response.token
        && Matching(r.store.tokens[i], movie, "HD", st.catalog[movie].hdFileId.value, now)
        && IsValid(r.store.tokens[i], now)
  {
    GenerateTokenUrl(st, movie, st.catalog[movie].hdFileId, "HD", now, newId)
  }

  /** A token expiring exactly now is neither purged (the purge needs
      `expires_at < now`) nor handed out (reuse needs `expires_at > now`). */
  lemma ExpiringNowIsKeptButNotReused(st: Store, movie: MovieId, fileId: Option<string>, quality: string,
                                      now: int, newId: TokenId, k: nat)
    requires UniqueTokens(st.tokens)
    requires Present(fileId)
    requires k < |st.tokens| && st.tokens[k].expiresAt == now
    ensures st.tokens[k] in GenerateTokenUrl(st, movie, fileId, quality, now, newId).store.tokens
    ensures GenerateTokenUrl(st, movie, fileId, quality, now, newId).response != Url(st.tokens[k].token)
  {
  }
}

=== FILE: telegram_bot.dfy ===
/** The older polling bot in telegram_bot.py: its `/start` handler, which
    also schedules an in-process deletion job for every sent document, and
    that job, which stops tracking a message only once the chat deletion
    succeeded. */
module TelegramBot {
  import opened Base
  import opened Models
  import opened BotHandlers

  /** The deletion job `start` schedules for a sent message. */
  datatype DeleteJob = DeleteJob(chatId: int, messageId: int, runAt: int)

  datatype LegacyStep = LegacyStep(store: Store, reply: Reply, job: Option<DeleteJob>)

  /** `start`: the same branches as the newer handler, except in two ways.
      After a successful transfer the deletion job is scheduled before the
      delivered file is recorded, so a record that the database rejects
      still leaves a job behind. And the error path deletes the "sending"
      notice again without a guard: once the notice is gone that deletion
      raises, and the handler ends without its error reply. */
  function Start(st: Store, args: seq<string>, chat: int, now: int,
                 lookupFails: bool, transfer: Transfer): (r: LegacyStep)
    ensures r.job.Some? <==> transfer.Sent? && r.reply in {FileSent, Raised}
    ensures r.job.Some? ==>
      r.job.value == DeleteJob(chat, transfer.messageId, now + SentFileLifetime)
  {
    if |args| == 0 then LegacyStep(st, Welcome, None)
    else if lookupFails then LegacyStep(st, LookupError, None)
    else
      match LookupToken(st.tokens, args[0])
      case Missing => LegacyStep(st, InvalidLink, None)
      case Ambiguous => LegacyStep(st, LookupError, None)
      case Unique(i) =>
        var t := st.tokens[i];
        var discard := st.(tokens := RemoveAt(st.tokens, i));
        if t.movie.Some? && t.movie.value !in st.catalog then LegacyStep(st, LookupError, None)
        else if !IsValid(t, now) then LegacyStep(discard, LinkExpired, None)
        else if t.movie.None? then LegacyStep(discard, NoMovie, None)
        else
          var movie := t.movie.value;
          var file := if t.quality == Some("SD") then st.catalog[movie].sdFileId else st.catalog[movie].hdFileId;
          if !Present(file) then LegacyStep(discard, FileMissing, None)
          else
            match transfer
            case Interrupted => LegacyStep(st, SendError, None)
            case Unconfirmed(_, noticeRemoved) => LegacyStep(st, if noticeRemoved then Raised else SendError, None)
            case Sent(messageId) =>
              var job := Some(DeleteJob(chat, messageId, now + SentFileLifetime));
              if t.quality.None? then LegacyStep(st, Raised, job)
              else
                var record := SentFile(chat, messageId, movie, t.quality.value, now, now + SentFileLifetime);
                LegacyStep(discard.(sent := st.sent + [record]), FileSent, job)
  }

  /** The "sending" notice is already gone when the error path runs. */
  predicate NoticeGone(transfer: Transfer) {
    transfer.Sent? || (transfer.Unconfirmed? && transfer.noticeRemoved)
  }

  /** Both `/start` handlers change the stores in the same way. They answer
      with the same kind of message, except that where the newer handler
      reports a send error after the notice is gone, the legacy one raises
      without answering. */
  lemma StartAgreesWithHandler(st: Store, args: seq<string>, chat: int, now: int,
                               lookupFails: bool, transfer: Transfer)
    ensures Start(st, args, chat, now, lookupFails, transfer).store
         == HandleStartCommand(st, args, chat, now, lookupFails, transfer).store
    ensures Start(st, args, chat, now, lookupFails, transfer).reply.Raised?
        <==> HandleStartCommand(st, args, chat, now, lookupFails, transfer).response.SendError? && NoticeGone(transfer)
    ensures !Start(st, args, chat, now, lookupFails, transfer).reply.Raised? ==>
      Start(st, args, chat, now, lookupFails, transfer).reply
        == HandleStartCommand(st, args, chat, now, lookupFails, transfer).response
  {
    if |args| > 0 && !lookupFails {
      match LookupToken(st.tokens, args[0])
      case Missing =>
      case Ambiguous =>
      case Unique(i) =>
        var t := st.tokens[i];
        if t.movie.Some? && t.movie.value in st.catalog && IsValid(t, now) {
          assert BotFile(st.catalog[t.movie.value], t.quality)
              == (if t.quality == Some("SD") then st.catalog[t.movie.value].sdFileId
                  else st.catalog[t.movie.value].hdFileId);
        }
    }
  }

  /** `delete_message_job`: on a successful chat deletion every record of
      that (chat, message) pair is dropped; on failure nothing changes. */
  function DeleteMessageJob(sent: seq<SentFile>, job: DeleteJob, remoteOk: bool): (r: seq<SentFile>)
    ensures !remoteOk ==> r == sent
    ensures remoteOk ==> forall f :: f in r <==> f in sent && Key(f) != (job.chatId, job.messageId)
    ensures remoteOk ==> |r| == |sent| - Count(sent, (f: SentFile) => Key(f) == (job.chatId, job.messageId))
  {
    if remoteOk then
      var keep := (f: SentFile) => Key(f) != (job.chatId, job.messageId);
      var drop := (f: SentFile) => Key(f) == (job.chatId, job.messageId);
      FilterPartition(sent, keep, drop);
      FilterCount(sent, drop);
      assert |multiset(Filter(sent, keep))| + |multiset(Filter(sent, drop))| == |multiset(sent)|;
      Filter(sent, keep)
    else sent
  }

  /** The job scheduled by a delivery, once it succeeds, removes the record
      that delivery added and keeps every record of another message. */
  lemma JobRemovesDeliveredRecord(st: Store, args: seq<string>, chat: int, now: int, transfer: Transfer)
    requires Start(st, args, chat, now, false, transfer).reply == FileSent
    ensures var r := Start(st, args, chat, now, false, transfer);
      var after := DeleteMessageJob(r.store.sent, r.job.value, true);
      && (forall f :: f in after ==> Key(f) != (chat, transfer.messageId))
      && (forall f :: f in st.sent && Key(f) != (chat, transfer.messageId) ==> f in after)
  {
    StartAgreesWithHandler(st, args, chat, now, false, transfer);
  }
}

=== FILE: views.dfy ===
/** The web side of the download flow in BF/views.py: the movie detail page's
    download links, token issuance (`download_token_view`) and token
    validation (`download_file_redirect`), which sends the visitor on to the
    bot with the token as its start payload. */
module Views {
  import opened Base
  import opened Models

  /** Upper-casing one character (ASCII letters only). */
  function UpperChar(c: char): char {
    if 'a' <= c <= 'z' then (c as int - 32) as char else c
  }

  function UpperAscii(s: string): (r: string)
    ensures |r| == |s|
    ensures forall i :: 0 <= i < |s| ==> r[i] == UpperChar(s[i])
  {
    seq(|s|, i requires 0 <= i < |s| => UpperChar(s[i]))
  }

  /** Exactly the four spellings of "sd" in any letter case upper-case to
      "SD". */
  lemma UpperIsSd(s: string)
    ensures UpperAscii(s) == "SD" <==> s in {"sd", "sD", "Sd", "SD"}
  {
    if UpperAscii(s) == "SD" {
      assert |s| == 2;
      assert UpperChar(s[0]) == 'S' && UpperChar(s[1]) == 'D';
      assert s[0] in {'s', 'S'} && s[1] in {'d', 'D'};
      assert s == [s[0], s[1]];
    }
    if s in {"sd", "sD", "Sd", "SD"} {
      assert UpperAscii(s) == [UpperAscii(s)[0], UpperAscii(s)[1]];
    }
  }

  // ----- movie detail page -----

  /** The link to the issuance endpoint for one quality of one movie. */
  datatype IssueLink = IssueLink(quality: string, slug: MovieId)

  datatype DetailPage = DetailNotFound | Detail(sd: Option<IssueLink>, hd: Option<IssueLink>)

  /** The detail page offers a download link for a quality exactly when the
      movie has a file for it. */
  function MovieDetail(catalog: map<MovieId, Movie>, slug: MovieId): (r: DetailPage)
    ensures r.DetailNotFound? <==> slug !in catalog
    ensures r.Detail? ==> (r.sd.Some? <==> Present(catalog[slug].sdFileId))
    ensures r.Detail? ==> (r.hd.Some? <==> Present(catalog[slug].hdFileId))
    ensures r.Detail? && r.sd.Some? ==> r.sd.value == IssueLink("sd", slug)
    ensures r.Detail? && r.hd.Some? ==> r.hd.value == IssueLink("hd", slug)
  {
    if slug !in catalog then DetailNotFound
    else
      var m := catalog[slug];
      Detail(
        if Present(m.sdFileId) then Some(IssueLink("sd", slug)) else None,
        if Present(m.hdFileId) then Some(IssueLink("hd", slug)) else None)
  }

  // ----- issuance: download_token_view -----

  /** The file identifier the issuance view hands out for an already
      upper-cased quality, or `None` when that quality is not available. */
  function OfferedFile(m: Movie, quality: string): (r: Option<string>)
    ensures r.Some? <==> (quality == "SD" && Present(m.sdFileId)) || (quality == "HD" && Present(m.hdFileId))
    ensures r.Some? && quality == "SD" ==> r == m.sdFileId
    ensures r.Some? && quality == "HD" ==> r == m.hdFileId
    ensures r.Some? ==> r.value != ""
  {
    if quality == "SD" && Present(m.sdFileId) then m.sdFileId
    else if quality == "HD" && Present(m.hdFileId) then m.hdFileId
    else None
  }

  /** A token the issuance view may hand out again: same movie, same
      quality, expiring strictly after now. The file identifier is not
      compared. */
  predicate Reusable(t: DownloadToken, slug: MovieId, quality: string, now: int) {
    t.movie == Some(slug) && t.quality == Some(quality) && t.expiresAt > now
  }

  datatype Issued = NoSuchMovie | Forbidden | TokenCollision | RedirectToValidation(token: TokenId)

  /** `download_token_view`: hand out the first reusable token of the
      movie's requested quality, or insert a new one-hour token under the
      fresh identifier `newId`. An identifier already in use violates the
      uniqueness constraint and the insert fails. */
  function IssueToken(st: Store, slug: MovieId, quality: string, now: int, newId: TokenId): (r: Step<Issued>)
    ensures r.store.catalog == st.catalog && r.store.sent == st.sent
    ensures r.response.NoSuchMovie? <==> slug !in st.catalog
    ensures r.response.Forbidden? <==>
      slug in st.catalog && OfferedFile(st.catalog[slug], UpperAscii(quality)).None?
    ensures !r.response.RedirectToValidation? ==> r.store == st
    // the handed-out token exists, belongs to this movie and quality, and is valid now
    ensures r.response.RedirectToValidation? ==>
      exists i :: 0 <= i < |r.store.tokens| && r.store.tokens[i].token == r.response.token
        && Reusable(r.store.tokens[i], slug, UpperAscii(quality), now) && IsValid(r.store.tokens[i], now)
    // reuse: nothing is inserted
    ensures slug in st.catalog && OfferedFile(st.catalog[slug], UpperAscii(quality)).Some?
      && (exists i :: 0 <= i < |st.tokens| && Reusable(st.tokens[i], slug, UpperAscii(quality), now))
      ==> r.store == st && r.response.RedirectToValidation? && HasToken(st.tokens, r.response.token)
    // creation: exactly one row is inserted, carrying the offered file
    ensures slug in st.catalog && OfferedFile(st.catalog[slug], UpperAscii(quality)).Some?
      && (forall i :: 0 <= i < |st.tokens| ==> !Reusable(st.tokens[i], slug, UpperAscii(quality), now))
      && !HasToken(st.tokens, newId)
      ==> (r.response == RedirectToValidation(newId)
           && r.store.tokens == st.tokens
             + [NewToken(newId, slug, UpperAscii(quality), OfferedFile(st.catalog[slug], UpperAscii(quality)).value, now)])
    // an identifier already in use makes the insert fail
    ensures slug in st.catalog && OfferedFile(st.catalog[slug], UpperAscii(quality)).Some?
      && (forall i :: 0 <= i < |st.tokens| ==> !Reusable(st.tokens[i], slug, UpperAscii(quality), now))
      && HasToken(st.tokens, newId)
      ==> r.response.TokenCollision?
  {
    if slug !in st.catalog then Step(st, NoSuchMovie)
    else
      var q := UpperAscii(quality);
      match OfferedFile(st.catalog[slug], q)
      case None => Step(st, Forbidden)
      case Some(fileId) =>
        match FindFirst(st.tokens, (t: DownloadToken) => Reusable(t, slug, q, now))
        case Some(i) => Step(st, RedirectToValidation(st.tokens[i].token))
        case None =>
          if HasToken(st.tokens, newId) then Step(st, TokenCollision)
          else
            var t := NewToken(newId, slug, q, fileId, now);
            assert (st.tokens + [t])[|st.tokens|] == t;
            Step(st.(tokens := st.tokens + [t]), RedirectToValidation(newId))
  }

  // ----- validation: download_file_redirect -----

  /** The bot deep link `https://t.me/{bot}?start={token}`. */
  function BotLink(bot: string, token: TokenId): string {
    "https://t.me/" + bot + "?start=" + token
  }

  /** What Telegram hands the bot as the start argument of a deep link:
      the text after the first `?`, provided it begins with `start=`. This
      reading keeps everything after `start=`, `&` and `#` included; a full
      URL parser would stop there. Token identifiers are UUID text (hex
      digits and hyphens), so for the links the view builds the two
      readings agree. */
  function StartPayload(url: string): (r: Option<string>)
    ensures r.Some? ==> |r.value| <= |url|
    decreases |url|
  {
    if |url| == 0 then None
    else if url[0] == '?' then
      var rest := url[1..];
      if |rest| >= 6 && rest[..6] == "start=" then Some(rest[6..]) else None
    else StartPayload(url[1..])
  }

  /** The deep link carries the token to the bot unchanged, for any bot
      username without a `?` (Telegram usernames are letters, digits and
      underscores). */
  lemma {:induction false} BotLinkCarriesToken(bot: string, token: TokenId)
    requires forall i :: 0 <= i < |bot| ==> bot[i] != '?'
    ensures StartPayload(BotLink(bot, token)) == Some(token)
  {
    var tail := "?start=" + token;
    assert BotLink(bot, token) == ("https://t.me/" + bot) + tail;
    PayloadSkipsPrefix("https://t.me/" + bot, tail);
    assert tail[1..][..6] == "start=";
    assert tail[1..][6..] == token;
  }

  lemma {:induction false} PayloadSkipsPrefix(prefix: string, tail: string)
    requires forall i :: 0 <= i < |prefix| ==> prefix[i] != '?'
    ensures StartPayload(prefix + tail) == StartPayload(tail)
    decreases |prefix|
  {
    if |prefix| == 0 {
      assert prefix + tail == tail;
    } else {
      assert (prefix + tail)[0] == prefix[0];
      assert (prefix + tail)[1..] == prefix[1..] + tail;
      PayloadSkipsPrefix(prefix[1..], tail);
    }
  }

  datatype Validated = InvalidToken | ExpiredToken | MultipleTokens | RedirectToBot(url: string)

  /** `download_file_redirect`: an unknown identifier is refused, an expired
      token is deleted and refused, a valid token is left in place and the
      visitor is sent to the bot. Two rows with the same identifier make the
      lookup raise, which the view does not catch. */
  function ValidateToken(st: Store, token: TokenId, bot: string, now: int): (r: Step<Validated>)
    ensures r.response.InvalidToken? <==> !HasToken(st.tokens, token)
    ensures !r.response.ExpiredToken? ==> r.store == st
    ensures r.response.ExpiredToken? ==>
      exists i :: 0 <= i < |st.tokens| && st.tokens[i].token == token && !IsValid(st.tokens[i], now)
        && r.store == st.(tokens := RemoveAt(st.tokens, i))
    ensures r.response.RedirectToBot? ==>
      r.response.url == BotLink(bot, token)
        && exists i :: 0 <= i < |st.tokens| && st.tokens[i].token == token && IsValid(st.tokens[i], now)
    ensures UniqueTokens(st.tokens) ==> !r.response.MultipleTokens?
    ensures UniqueTokens(st.tokens) && HasToken(st.tokens, token) ==>
      (r.response.RedirectToBot? <==> exists i :: 0 <= i < |st.tokens| && st.tokens[i].token == token && IsValid(st.tokens[i], now))
  {
    match LookupToken(st.tokens, token)
    case Missing => Step(st, InvalidToken)
    case Ambiguous => Step(st, MultipleTokens)
    case Unique(i) =>
      if !IsValid(st.tokens[i], now) then
        Step(st.(tokens := RemoveAt(st.tokens, i)), ExpiredToken)
      else
        Step(st, RedirectToBot(BotLink(bot, token)))
  }
}
